=== FILE: README.md ===
# BookTrack: editing a book, modelled in Dafny

BookTrack is a small library catalogue. This project models how a book gets edited.

- **Browser side** (`public/js/update-book.js`):
  - the ISBN-10/ISBN-13 validator;
  - the title-uniqueness check over the fetched `/books` list;
  - the 16 MiB guard on a newly picked cover image;
  - the submit handler's guard chain: trimmed title ≤ 100, trimmed author ≤ 150, valid ISBN, title unique, user confirms, then the `PUT`.
- **Server side** (`utils/update-book-util.js`):
  - `updateBook`: field checks, lookup, a uniqueness check only when the title changed, the image cap and base64 encoding, the write, the null-result and exception paths;
  - `fetchBookById`: trim, id-format check, lookup.

Modules:

- `Common`: `Option` and the shared limits (100, 150, 16 MiB).
- `JsText`: `String.prototype.trim` over the ECMAScript white-space and line-terminator set, with its properties (idempotent, strips any blank padding).
- `Isbn`: `isValidISBN`. A method mirrors the JS loops and early returns and is proved equal to a specification predicate. That predicate is then proved to mean what an ISBN check means: hyphens are ignored wherever they stand; the ISBN-10 weighted sum agrees with the standard descending weights; the check character or digit is uniquely determined; a single substituted ISBN-13 digit is always detected. Concrete accept/reject cases are also proved.
- `EditForm`: `isTitleUnique`, the image-change handler, and the submit handler as a function of the form's fields, the fetched list, the user's answer and the PUT's outcome.
- `BookStore`:
  - `UpdateSpec`, the specification of `updateBook` over a map of records;
  - a `BookCollection` class whose methods stand for the driver calls (`findById`, `findOne`, `findByIdAndUpdate`) and record each call in a `calls` sequence;
  - the imperative `UpdateBook`, proved against `UpdateSpec`;
  - invariants the update preserves: unique titles, non-negative copies;
  - `fetchBookById`.
- `Agreement`: lemmas relating the form's checks to the server's.

The form and the server check different titles. The form trims the title and author, then measures the trimmed values and checks the trimmed title for uniqueness. It sends the fields as typed, and the server checks those untrimmed values. The model proves three places where this makes them disagree:

- A 100-letter title with a trailing blank passes the form and is rejected with 400 by the server (`Agreement.FormSendsPaddedTitle`, `Agreement.ServerRejectsPaddedTitle`).
- A new title typed with surrounding blanks that another book stores exactly passes the form's uniqueness check (the trimmed title is free) and is rejected by the server (`Agreement.PaddedDuplicatePassesOnlyTheForm`).
- A book whose trimmed stored title is another book's title, for example two books sharing a title with clean ends, cannot keep its title through the form, while the server accepts it unchanged (`Agreement.DuplicateStoredTitleBlocksOnlyTheForm`).

 The server does not validate the ISBN at all; the model stores whatever arrives.

## Model

| member | source | states |
|---|---|---|
| `JsText.Trim` | public/js/update-book.js:119-120 | the result is a slice of the input with no trimmable character at either end, and everything cut off on both sides is trimmable |
| `JsText.TrimFixedPoint` | public/js/update-book.js:119-120 | a string is its own trim exactly when neither end is a trimmable character |
| `JsText.TrimIdempotent` | public/js/update-book.js:119-120 | trimming twice is trimming once |
| `JsText.TrimRemovesPadding` | public/js/update-book.js:119-120 | any blank padding around a clean string is removed exactly |
| `Isbn.StripHyphens` | public/js/update-book.js:18 | removing hyphens never lengthens the text |
| `Isbn.StripConcat` | public/js/update-book.js:18 | hyphen removal distributes over concatenation |
| `Isbn.StripIdempotent` | public/js/update-book.js:18 | removing hyphens twice is removing them once |
| `Isbn.IsValidISBN` | public/js/update-book.js:16-47 | the loop-based validator, with its early returns, answers exactly the ISBN-10/ISBN-13 validity predicate on the hyphen-free text |
| `Isbn.OnlyTenOrThirteen` | public/js/update-book.js:20-46 | a valid ISBN has exactly 10 or 13 characters once hyphens are removed |
| `Isbn.HyphensIgnored` | public/js/update-book.js:18 | validity depends only on the hyphen-free text |
| `Isbn.HyphenInsertion` | public/js/update-book.js:18 | inserting a hyphen anywhere never changes validity |
| `Isbn.ValidCharacters` | public/js/update-book.js:22-44 | in a valid ISBN every character is a digit, except that the tenth of an ISBN-10 may be `X` |
| `Isbn.AscendingAgreesWithDescending` | public/js/update-book.js:22-36 | the loop's ascending weights 1..10 give a multiple of 11 exactly when the standard descending weights 10..1 do |
| `Isbn.Isbn10CheckCharacter` | public/js/update-book.js:22-36 | for a 10-character candidate whose first nine are digits and whose last is a digit or `X`: valid iff the last character's value (`X` for 10) is the weighted sum of the first nine modulo 11 |
| `Isbn.Isbn13CheckDigit` | public/js/update-book.js:37-44 | a 13-digit candidate is valid iff its last digit is (10 − alternating 1/3 sum of the first twelve mod 10) mod 10 |
| `Isbn.Isbn13DetectsSingleSubstitution` | public/js/update-book.js:37-44 | changing one digit of a valid ISBN-13 always makes it invalid |
| `Isbn.AcceptsCheckCharacterX` | public/js/update-book.js:28-30 | `156881111X`, with check character X, is accepted |
| `Isbn.AcceptsIsbn13` | public/js/update-book.js:37-44 | `9783161484100` is accepted |
| `Isbn.AcceptsHyphenatedIsbn13` | public/js/update-book.js:18 | `978-3-16-148410-0` is accepted |
| `Isbn.RejectsElevenDigits` | public/js/update-book.js:45-46 | an 11-digit string is rejected |
| `Isbn.RejectsBadIsbn10Sum` | public/js/update-book.js:36 | a 10-digit string whose weighted sum is not a multiple of 11 is rejected |
| `Isbn.RejectsLetterInIsbn10` | public/js/update-book.js:23-26 | a letter among the first nine characters of an ISBN-10 is rejected |
| `Isbn.RejectsBadCheckCharacter` | public/js/update-book.js:28-35 | a tenth character that is neither a digit nor `X` is rejected |
| `Isbn.RejectsLetterInIsbn13` | public/js/update-book.js:38-41 | a letter in a 13-character candidate is rejected |
| `EditForm.IsTitleUnique` | public/js/update-book.js:12 | the title is unique iff every listed book carries another title or is the book being edited |
| `EditForm.EmptyListIsUnique` | public/js/update-book.js:12 | an empty list blocks no title |
| `EditForm.UniqueOverConcat` | public/js/update-book.js:12 | uniqueness over two lists joined is uniqueness over each |
| `EditForm.OwnTitleIsUnique` | public/js/update-book.js:12 | over a list with distinct titles, `isTitleUnique` accepts any listed entry's own title for its own id; the form passes the trimmed title, so this is what the form does when that title has no surrounding blanks |
| `EditForm.OnImageChange` | public/js/update-book.js:90-111 | no file: nothing happens; a file over 16 MiB: the alert, and the input is cleared; otherwise the preview |
| `EditForm.ImageCapBoundary` | public/js/update-book.js:96 | exactly 16 MiB is previewed, one byte more is rejected |
| `EditForm.SubmitAlert` | public/js/update-book.js:124-166 | no alert exactly after a declined confirmation or a failed list fetch; otherwise each stop shows its own message, the success message exactly after an ok PUT, so the message identifies the stop |
| `EditForm.ClosesForm` | public/js/update-book.js:157-160 | the form closes exactly when the PUT answered ok, which is exactly when the success alert is shown |
| `EditForm.Submit` | public/js/update-book.js:114-166 | the first failing guard decides, in the order title, author, ISBN, list, uniqueness, confirmation; the PUT is sent iff every guard passes and the user confirms, and its body is the form's fields as typed, untrimmed |
| `EditForm.SubmitSeesTrimmedFields` | public/js/update-book.js:119-121 | two forms with the same id, ISBN and trimmed title and author stop at the same place with the same alert; only the sent body differs |
| `EditForm.PaddedTitleStillFits` | public/js/update-book.js:117-127 | blanks around the title never change where a submission stops, and a sent body still carries them |
| `BookStore.Merge` | utils/update-book-util.js:61-68 | the written record takes every submitted field, and keeps its old image unless a new one was uploaded |
| `BookStore.UpdateSpec` | utils/update-book-util.js:9-83 | the checks run in the order title, author, copies, lookup, uniqueness, image, and each 400 and the 404 is given iff its check is the first to fail; field failures touch no driver; `findOne` is called iff the title changed; an exception from `findById`, `findOne` or `findByIdAndUpdate`, and nothing else, gives 500 "An error occurred while updating the book."; the write is attempted iff every check passes; success iff the write neither throws nor finds the record gone, and then exactly that record is merged; a record gone at the write gives 500 "Failed to update the book."; on any failure the handler writes nothing, so the collection is unchanged except that a concurrent deletion before the write has removed that record; every error status is 400, 404 or 500 |
| `BookStore.BookCollection.FindBook` | utils/update-book-util.js:34 | records the call; reports an exception iff the driver throws, otherwise the record with that id or none |
| `BookStore.BookCollection.FindOneByTitle` | utils/update-book-util.js:42 | records the call; reports an exception iff the driver throws, otherwise finds a stored book carrying the title iff there is one |
| `BookStore.BookCollection.FindByIdAndReplace` | utils/update-book-util.js:61-68 | records the call; reports an exception iff the driver throws and then writes nothing; otherwise updates only the one record and returns its new value, or writes nothing and finds nothing when the record is missing |
| `BookStore.UpdateBook` | utils/update-book-util.js:9-83 | the handler's reply and the collection's new state are exactly those of `UpdateSpec`, and its driver calls are appended to the recorded calls |
| `BookStore.UpdateKeepsTitlesUnique` | utils/update-book-util.js:40-68 | an update never makes two records share a title |
| `BookStore.UpdateKeepsCopiesNonNegative` | utils/update-book-util.js:28-31 | an update never stores a negative number of available copies |
| `BookStore.UpdateIsIdempotent` | utils/update-book-util.js:40-68 | repeating a successful update succeeds again and leaves the collection as the first one left it |
| `BookStore.FetchBookById` | utils/update-book-util.js:86-111 | 400 for a malformed trimmed id, with no lookup; otherwise 500 iff the lookup throws, 404 iff no record, else the stored record |
| `BookStore.FetchSeesTrimmedId` | utils/update-book-util.js:88 | two raw ids with the same trimmed form get the same reply |
| `BookStore.FetchIgnoresSurroundingBlanks` | utils/update-book-util.js:88 | blanks around the id in the URL do not change the reply |
| `BookStore.FetchAfterUpdate` | utils/update-book-util.js:61-72 | an update of an existing record whose fields, title and image pass the checks succeeds on a well-behaved store, and fetching that id afterwards returns the record the update replied with |
| `Agreement.UniquenessChecksAgree` | public/js/update-book.js:12 | given one and the same title, over a collection with unique titles, the form's list check and the server's conditional `findOne` accept it alike; the form checks the trimmed title and the server the typed one, so this covers titles typed without surrounding blanks |
| `Agreement.DuplicateStoredTitleBlocksOnlyTheForm` | public/js/update-book.js:119-144 | when the user keeps a stored title whose trimmed form another book stores, the form (checking the trimmed title) blocks the edit while the server (checking the unchanged typed title) lets it through |
| `Agreement.PaddedDuplicatePassesOnlyTheForm` | utils/update-book-util.js:41-46 | a new title that another book stores exactly, but whose trimmed form no book stores, passes every check of the form and is sent as typed, and the server answers it with 400 "Title already exists." |
| `Agreement.ImageCapsAgree` | utils/update-book-util.js:53 | the form previews exactly the files the server accepts |
| `Agreement.PutResponseOf` | public/js/update-book.js:157-163 | the form sees `response.ok` exactly for the server's 200 reply; a server reply never looks like a `fetch` exception |
| `Agreement.FormClosesIffServerUpdated` | public/js/update-book.js:157-163 | the form closes with the success alert exactly when the server's update succeeded, and shows the failure alert for every error reply |
| `Agreement.FormSendsPaddedTitle` | public/js/update-book.js:117-155 | a 100-letter title with a trailing blank passes every check of the form, and the PUT body carries it as typed |
| `Agreement.ServerRejectsPaddedTitle` | utils/update-book-util.js:15-21 | `updateBook` reads that untrimmed title from the sent body and rejects it with 400, so `response.ok` is false and the form shows its generic failure alert |

## Left out

- The DOM, `FormData`, `fetch`, `alert` and `confirm` are not modelled. What they deliver is an input: the field values, the fetched list (or its failure), the user's answer, and how the PUT ends.
- The PUT body is taken to carry the form's title, author and ISBN under the names `updateBook` reads (`Agreement.ReceivedFields`). The form markup that names those inputs is not part of this model; genre and copies are parameters there.
- `closeForm`, `getBooks`, `editBook` (filling the form from `/books/:id`) and the `FileReader` preview are page updates. The model records only whether the form closes.
- Logging (`logger`, `console.error`) has no effect on behaviour and is not modelled.
- Base64 encoding (`buffer.toString('base64')`) and `mongoose.isValidObjectId` are library code. They are function parameters.
- The database is a map from id to record. Driver failures and a record deleted by another request between the lookup and the write are the `StoreBehaviour` input. Other interleavings are not modelled, for example two concurrent updates racing past the uniqueness check.
- `UpdateBook`'s id is passed to `findById` untrimmed and unvalidated. Mongoose's cast error for a malformed id is covered only as `FindByIdThrows`.
- Ids are compared as plain strings: the store is keyed by the id text. Mongoose casts an id to an ObjectId, whose hex digits are case-insensitive, so in the application two spellings such as `671C94D0607A452E0BC99E54` and `671c94d0607a452e0bc99e54` name the same record. In the model they are different keys, and `BookStore.FetchBookById` and `BookStore.UpdateSpec` answer 404 for a spelling that differs from the stored one.
- Mongoose schema validation and casting during `findByIdAndUpdate` are not modelled. The body's fields are taken as already-typed values: `availableCopies` is an integer, and the string-to-number coercion of `availableCopies < 0` is left out. A missing `title` or `author` (a `TypeError`, hence 500) is left out for the same reason.
- JS `length` counts UTF-16 code units. The model counts characters, which agree for text in the Basic Multilingual Plane.
- `Isbn.StripHyphens`: states only that the result is no longer than its input. That no hyphen remains and that other characters are kept in order are proved as the lemmas `StripLeavesNoHyphen`, `StripConcat` and `StripNoHyphens`.
- The Express routing, the metrics and the rest of the application (adding, deleting and listing books) are not part of this model.

=== FILE: agreement.dfy ===
/**
 * How the edit form's checks relate to the server's. The form repeats the
 * server's title, author, uniqueness and image rules before it sends the
 * PUT, but it measures the TRIMMED title and author while the body it sends
 * carries the fields as typed, and the server measures those.
 */
module Agreement {
  import opened Common
  import opened JsText
  import opened Isbn
  import opened EditForm
  import opened BookStore

  /** The `/books` list the form fetches: every stored book, listed with its title. */
  predicate ListsCollection(list: seq<ListedBook>, books: map<Id, Book>) {
    && (forall i :: 0 <= i < |list| ==> list[i].id in books && books[list[i].id].title == list[i].title)
    && (forall k :: k in books ==> exists i :: 0 <= i < |list| && list[i].id == k)
  }

  /** The server's uniqueness step lets `title` through for book `id`. */
  predicate ServerAcceptsTitle(books: map<Id, Book>, id: Id, title: string)
    requires id in books
  {
    books[id].title == title || !TitleTaken(books, title)
  }

  /**
   * Over a collection whose titles are unique, the form's `isTitleUnique`
   * on the fetched list accepts exactly the titles the server's conditional
   * `findOne` check accepts.
   */
  lemma UniquenessChecksAgree(list: seq<ListedBook>, books: map<Id, Book>, id: Id, title: string)
    requires ListsCollection(list, books) && UniqueTitles(books) && id in books
    ensures IsTitleUnique(list, title, id) <==> ServerAcceptsTitle(books, id, title)
  {
  }

  /**
   * A user who keeps a book's stored title (the form is filled with it) has
   * it checked trimmed by the form and untrimmed by the server. Where another
   * book stores exactly that trimmed title (two books sharing a title with
   * clean ends, say), the form blocks the edit, while the server, seeing an
   * unchanged title, lets it through.
   */
  lemma DuplicateStoredTitleBlocksOnlyTheForm(list: seq<ListedBook>, books: map<Id, Book>, id: Id, other: Id)
    requires ListsCollection(list, books) && id in books && other in books && other != id
    requires books[other].title == Trim(books[id].title)
    ensures !IsTitleUnique(list, Trim(books[id].title), id)
    ensures ServerAcceptsTitle(books, id, books[id].title)
  {
    var i :| 0 <= i < |list| && list[i].id == other;
    assert list[i].title == Trim(books[id].title);
  }

  /**
   * The other way round: a new title typed with surrounding blanks is checked
   * trimmed by the form, which finds no book with the trimmed title and sends
   * the edit, while the server looks up the untrimmed title, finds another
   * book storing exactly that, and answers 400.
   */
  lemma PaddedDuplicatePassesOnlyTheForm(list: seq<ListedBook>, books: map<Id, Book>, form: EditFields,
                                         genre: string, availableCopies: int, file: Option<Upload>,
                                         toBase64: seq<bv8> -> string, behaviour: StoreBehaviour, put: PutResponse)
    requires ListsCollection(list, books) && form.bookId in books
    requires FieldsValid(ReceivedFields(form, genre, availableCopies)) && IsValidIsbn(form.isbn)
    requires behaviour != FindByIdThrows && behaviour != FindOneThrows
    requires books[form.bookId].title != form.title && TitleTaken(books, form.title)
    requires !TitleTaken(books, Trim(form.title))
    ensures Submit(form, Some(list), true, put) == Sent(form, put)
    ensures UpdateSpec(books, form.bookId, ReceivedFields(form, genre, availableCopies), file, toBase64, behaviour).reply
         == UpdateError(400, TitleExistsError)
  {
    assert IsTitleUnique(list, Trim(form.title), form.bookId) by {
      forall i | 0 <= i < |list|
        ensures list[i].title != Trim(form.title)
      {
        assert list[i].id in books && books[list[i].id].title == list[i].title;
      }
    }
  }

  /** The form's image cap and the server's are the same 16 MiB. */
  lemma ImageCapsAgree(file: Upload)
    ensures OnImageChange(Some(|file.buffer|)) != PickRejected(ImageTooLargeAlert) <==> ImageFits(Some(file))
  {
  }

  /** How the form's `fetch` sees the server's reply: `response.ok` holds only for the 200 reply. */
  function PutResponseOf(reply: UpdateReply): (put: PutResponse)
    ensures put == PutOk <==> reply.UpdateOk?
    ensures put != PutThrew
  {
    if reply.UpdateOk? then PutOk else PutNotOk
  }

  /** The form closes, with the success alert, exactly when the server's update succeeded. */
  lemma FormClosesIffServerUpdated(body: EditFields, reply: UpdateReply)
    ensures ClosesForm(Sent(body, PutResponseOf(reply))) <==> reply.UpdateOk?
    ensures SubmitAlert(Sent(body, PutResponseOf(reply))) == Some(UpdatedAlert) <==> reply.UpdateOk?
    ensures reply.UpdateError? ==> SubmitAlert(Sent(body, PutResponseOf(reply))) == Some(UpdateFailedAlert)
  {
  }

  /**
   * The fields `updateBook` reads from the PUT body the form sent: title,
   * author and ISBN exactly as typed. Genre and copies are read from form
   * inputs the submit handler never inspects, so they are given here.
   */
  function ReceivedFields(body: EditFields, genre: string, availableCopies: int): UpdateFields {
    UpdateFields(body.title, body.author, body.isbn, genre, availableCopies)
  }

  /** One hundred letters followed by a blank. */
  function PaddedTitle(): (t: string)
    ensures |t| == MaxTitleLength + 1
    ensures Trim(t) == t[..MaxTitleLength]
  {
    var letters := seq(MaxTitleLength, _ => 'a');
    assert letters[0] == 'a' && letters[|letters| - 1] == 'a';
    TrimRemovesPadding([], letters, [' ']);
    assert [] + letters + [' '] == letters + [' '];
    assert (letters + [' '])[..MaxTitleLength] == letters;
    letters + [' ']
  }

  /** An edit of book `id` whose title is `PaddedTitle()`, with a valid author and ISBN. */
  function PaddedForm(id: Id): EditFields {
    EditFields(id, PaddedTitle(), "A", "9783161484100")
  }

  /**
   * A title of 100 characters plus a trailing blank passes every check of
   * the form, which measures it trimmed, and the form sends it as typed...
   */
  lemma FormSendsPaddedTitle(id: Id, put: PutResponse)
    ensures Submit(PaddedForm(id), Some([]), true, put) == Sent(PaddedForm(id), put)
  {
    AcceptsIsbn13();
    TrimClean("A");
  }

  /**
   * ... but the server reads the body's title untrimmed and answers 400, so
   * `response.ok` is false and the form shows its generic failure alert.
   */
  lemma ServerRejectsPaddedTitle(books: map<Id, Book>, id: Id, genre: string, availableCopies: int,
                                 file: Option<Upload>, toBase64: seq<bv8> -> string,
                                 behaviour: StoreBehaviour, put: PutResponse)
    ensures var sent := Submit(PaddedForm(id), Some([]), true, put);
            && sent.Sent?
            && sent.body.title == PaddedTitle()
            && UpdateSpec(books, sent.body.bookId, ReceivedFields(sent.body, genre, availableCopies), file, toBase64, behaviour).reply
               == UpdateError(400, TitleTooLongError)
    ensures var reply := UpdateSpec(books, id, ReceivedFields(PaddedForm(id), genre, availableCopies), file, toBase64, behaviour).reply;
            SubmitAlert(Submit(PaddedForm(id), Some([]), true, PutResponseOf(reply))) == Some(UpdateFailedAlert)
  {
    FormSendsPaddedTitle(id, put);
    var reply := UpdateSpec(books, id, ReceivedFields(PaddedForm(id), genre, availableCopies), file, toBase64, behaviour).reply;
    FormSendsPaddedTitle(id, PutResponseOf(reply));
  }
}

=== FILE: book_store.dfy ===
/**
 * The server's update and fetch handlers over the book collection.
 * `updateBook` validates the submitted fields, looks the book up, checks the
 * new title against the other books only when the title changed, checks and
 * encodes an uploaded image, then overwrites the record's fields, keeping the
 * old image when no file came with the request. `fetchBookById` trims the id,
 * checks its format and looks it up.
 *
 * Base64 encoding and the driver's id-format check are library code: they
 * are parameters here. So is everything the database may do that the handler
 * does not control (a call that throws, a record deleted by another request
 * between the lookup and the write).
 */
module BookStore {
  import opened Common
  import opened JsText

  type Id = string

  /** A stored book document. `image` is the base64 text of the cover, if any. */
  datatype Book = Book(
    title: string,
    author: string,
    isbn: string,
    genre: string,
    availableCopies: int,
    image: Option<string>)

  /** The fields of a `PUT /updateBook/:id` body. */
  datatype UpdateFields = UpdateFields(
    title: string,
    author: string,
    isbn: string,
    genre: string,
    availableCopies: int)

  /** An uploaded file as the upload middleware hands it over; its size is the number of bytes. */
  datatype Upload = Upload(buffer: seq<bv8>)

  /** The JSON reply of `updateBook`: `{error}` with a status, or 200 `{message, book}`. */
  datatype UpdateReply =
    | UpdateError(status: nat, error: string)
    | UpdateOk(message: string, book: Book)

  const TitleTooLongError: string := "Title must be 100 characters or fewer."
  const AuthorTooLongError: string := "Author name must be 150 characters or fewer."
  const NegativeCopiesError: string := "Available copies should be more that 0"
  const NotFoundError: string := "Book not found"
  const TitleExistsError: string := "Title already exists."
  const ImageTooLargeError: string := "Image size should not exceed 16MB."
  const UpdateFailedError: string := "Failed to update the book."
  const UpdateExceptionError: string := "An error occurred while updating the book."
  const UpdatedMessage: string := "Book updated successfully!"

  /** A driver call the handler issues, in the order it issues them. */
  datatype DriverCall =
    | FindById(id: Id)
    | FindOne(title: string)
    | FindByIdAndUpdate(id: Id)

  /** What a driver call hands back: a record, no record, or an exception. */
  datatype DriverResult =
    | Threw
    | NotFound
    | Found(book: Book)

  /** What the database does during one update request, beyond answering the calls. */
  datatype StoreBehaviour =
    | Normal
    | FindByIdThrows
    | FindOneThrows
    | UpdateThrows
    | DeletedBeforeWrite  // another request removes the record between the lookup and the write

  /** Some book in the collection carries `title`: what `Book.findOne({ title })` reports. */
  predicate TitleTaken(books: map<Id, Book>, title: string) {
    exists k :: k in books && books[k].title == title
  }

  /**
   * The update document applied to a stored book: every submitted field
   * replaces the stored one; the image only when a new one was encoded.
   */
  function Merge(old_: Book, fields: UpdateFields, image: Option<string>): (b: Book)
    ensures b.title == fields.title && b.author == fields.author && b.isbn == fields.isbn
    ensures b.genre == fields.genre && b.availableCopies == fields.availableCopies
    ensures b.image == if image.Some? then image else old_.image
  {
    Book(fields.title, fields.author, fields.isbn, fields.genre, fields.availableCopies,
         if image.Some? then image else old_.image)
  }

  /** What one update request does: the reply, the collection afterwards and the driver calls made. */
  datatype UpdateEffect = UpdateEffect(reply: UpdateReply, books: map<Id, Book>, calls: seq<DriverCall>)

  /** The three field checks that run before the collection is touched. */
  predicate FieldsValid(fields: UpdateFields) {
    && |fields.title| <= MaxTitleLength
    && |fields.author| <= MaxAuthorLength
    && fields.availableCopies >= 0
  }

  /** The image check passes: no file, or a file of at most 16 MiB. */
  predicate ImageFits(file: Option<Upload>) {
    file.None? || |file.value.buffer| <= MaxImageBytes
  }

  /**
   * `updateBook` as a function of the collection before the request: the
   * specification the handler method is proved against.
   */
  function UpdateSpec(books: map<Id, Book>, id: Id, fields: UpdateFields, file: Option<Upload>,
                      toBase64: seq<bv8> -> string, behaviour: StoreBehaviour): (e: UpdateEffect)
    // The field checks come first, in this order, and touch nothing.
    ensures |fields.title| > MaxTitleLength ==>
      e == UpdateEffect(UpdateError(400, TitleTooLongError), books, [])
    ensures e.reply == UpdateError(400, TitleTooLongError) <==> |fields.title| > MaxTitleLength
    ensures |fields.title| <= MaxTitleLength && |fields.author| > MaxAuthorLength ==>
      e == UpdateEffect(UpdateError(400, AuthorTooLongError), books, [])
    ensures e.reply == UpdateError(400, AuthorTooLongError) <==>
      |fields.title| <= MaxTitleLength && |fields.author| > MaxAuthorLength
    ensures |fields.title| <= MaxTitleLength && |fields.author| <= MaxAuthorLength && fields.availableCopies < 0 ==>
      e == UpdateEffect(UpdateError(400, NegativeCopiesError), books, [])
    ensures e.reply == UpdateError(400, NegativeCopiesError) <==>
      |fields.title| <= MaxTitleLength && |fields.author| <= MaxAuthorLength && fields.availableCopies < 0
    ensures !FieldsValid(fields) <==> e.calls == []
    // Then the lookup; a driver exception there is answered with 500.
    ensures FieldsValid(fields) ==> e.calls[0] == FindById(id)
    ensures FieldsValid(fields) && behaviour == FindByIdThrows ==>
      e == UpdateEffect(UpdateError(500, UpdateExceptionError), books, [FindById(id)])
    ensures FieldsValid(fields) && behaviour != FindByIdThrows && id !in books ==>
      e == UpdateEffect(UpdateError(404, NotFoundError), books, [FindById(id)])
    ensures e.reply == UpdateError(404, NotFoundError) <==>
      FieldsValid(fields) && behaviour != FindByIdThrows && id !in books
    // The title is looked for among the books only when it changed.
    ensures FindOne(fields.title) in e.calls <==>
      FieldsValid(fields) && behaviour != FindByIdThrows && id in books && books[id].title != fields.title
    ensures FindOne(fields.title) in e.calls && behaviour == FindOneThrows ==>
      e == UpdateEffect(UpdateError(500, UpdateExceptionError), books, [FindById(id), FindOne(fields.title)])
    ensures e.reply == UpdateError(400, TitleExistsError) <==>
      FindOne(fields.title) in e.calls && behaviour != FindOneThrows && TitleTaken(books, fields.title)
    // The image cap is checked only after the lookup and the uniqueness check pass.
    ensures e.reply == UpdateError(400, ImageTooLargeError) <==>
      FieldsValid(fields) && behaviour != FindByIdThrows && id in books
      && (books[id].title == fields.title || (behaviour != FindOneThrows && !TitleTaken(books, fields.title)))
      && !ImageFits(file)
    // A write is attempted only when every check passed.
    ensures FindByIdAndUpdate(id) in e.calls <==>
      FieldsValid(fields) && behaviour != FindByIdThrows && id in books
      && (books[id].title == fields.title || (behaviour != FindOneThrows && !TitleTaken(books, fields.title)))
      && ImageFits(file)
    // Success: the one record gets the submitted fields; nothing else changes.
    ensures e.reply.UpdateOk? <==>
      FindByIdAndUpdate(id) in e.calls && behaviour != UpdateThrows && behaviour != DeletedBeforeWrite
    ensures e.reply.UpdateOk? ==>
      && e.reply.message == UpdatedMessage
      && id in books
      && e.books == books[id := e.reply.book]
      && e.reply.book == Merge(books[id], fields, if file.Some? then Some(toBase64(file.value.buffer)) else None)
    // Failure: nothing changes, except what a concurrent deletion removed.
    ensures e.reply.UpdateError? ==>
      e.books == if behaviour == DeletedBeforeWrite && FindByIdAndUpdate(id) in e.calls then books - {id} else books
    ensures FindByIdAndUpdate(id) in e.calls && behaviour == UpdateThrows ==>
      e.reply == UpdateError(500, UpdateExceptionError)
    ensures e.reply == UpdateError(500, UpdateFailedError) <==>
      FindByIdAndUpdate(id) in e.calls && behaviour == DeletedBeforeWrite
    // Every driver exception, and nothing else, ends in the generic 500.
    ensures e.reply == UpdateError(500, UpdateExceptionError) <==>
      || (FieldsValid(fields) && behaviour == FindByIdThrows)
      || (FindOne(fields.title) in e.calls && behaviour == FindOneThrows)
      || (FindByIdAndUpdate(id) in e.calls && behaviour == UpdateThrows)
    ensures e.reply.UpdateError? ==> e.reply.status == 400 || e.reply.status == 404 || e.reply.status == 500
  {
    if |fields.title| > MaxTitleLength then
      UpdateEffect(UpdateError(400, TitleTooLongError), books, [])
    else if |fields.author| > MaxAuthorLength then
      UpdateEffect(UpdateError(400, AuthorTooLongError), books, [])
    else if fields.availableCopies < 0 then
      UpdateEffect(UpdateError(400, NegativeCopiesError), books, [])
    else if behaviour == FindByIdThrows then
      UpdateEffect(UpdateError(500, UpdateExceptionError), books, [FindById(id)])
    else if id !in books then
      UpdateEffect(UpdateError(404, NotFoundError), books, [FindById(id)])
    else
      var titleChanged := books[id].title != fields.title;
      var looked := [FindById(id)] + if titleChanged then [FindOne(fields.title)] else [];
      if titleChanged && behaviour == FindOneThrows then
        UpdateEffect(UpdateError(500, UpdateExceptionError), books, looked)
      else if titleChanged && TitleTaken(books, fields.title) then
        UpdateEffect(UpdateError(400, TitleExistsError), books, looked)
      else if !ImageFits(file) then
        UpdateEffect(UpdateError(400, ImageTooLargeError), books, looked)
      else
        var image := if file.Some? then Some(toBase64(file.value.buffer)) else None;
        var written := looked + [FindByIdAndUpdate(id)];
        if behaviour == UpdateThrows then
          UpdateEffect(UpdateError(500, UpdateExceptionError), books, written)
        else if behaviour == DeletedBeforeWrite then
          UpdateEffect(UpdateError(500, UpdateFailedError), books - {id}, written)
        else
          var updated := Merge(books[id], fields, image);
          UpdateEffect(UpdateOk(UpdatedMessage, updated), books[id := updated], written)
  }

  /**
   * The book collection as the handler sees it through the driver. `calls`
   * records the driver calls issued, in order.
   */
  class BookCollection {
    var books: map<Id, Book>
    var calls: seq<DriverCall>

    constructor (initial: map<Id, Book>)
      ensures books == initial && calls == []
    {
      books := initial;
      calls := [];
    }

    /** `Book.findById(id)`; `throws` says the driver call fails. */
    method FindBook(id: Id, throws: bool) returns (found: DriverResult)
      modifies this`calls
      ensures calls == old(calls) + [FindById(id)]
      ensures found.Threw? <==> throws
      ensures !throws ==> found == if id in books then Found(books[id]) else NotFound
    {
      calls := calls + [FindById(id)];
      if throws {
        return Threw;
      }
      found := if id in books then Found(books[id]) else NotFound;
    }

    /** `Book.findOne({ title })`: some book carrying `title`, if there is one; `throws` says the call fails. */
    method FindOneByTitle(title: string, throws: bool) returns (found: DriverResult)
      modifies this`calls
      ensures calls == old(calls) + [FindOne(title)]
      ensures found.Threw? <==> throws
      ensures !throws ==> (found.Found? <==> TitleTaken(books, title))
      ensures found.Found? ==> found.book.title == title && found.book in books.Values
    {
      calls := calls + [FindOne(title)];
      if throws {
        return Threw;
      }
      if TitleTaken(books, title) {
        var k :| k in books && books[k].title == title;
        found := Found(books[k]);
      } else {
        found := NotFound;
      }
    }

    /**
     * `Book.findByIdAndUpdate(id, update, { new: true })`: the updated record,
     * or nothing when no record has that id; `throws` says the call fails
     * and writes nothing.
     */
    method FindByIdAndReplace(id: Id, fields: UpdateFields, image: Option<string>, throws: bool)
      returns (updated: DriverResult)
      modifies this
      ensures calls == old(calls) + [FindByIdAndUpdate(id)]
      ensures updated.Threw? <==> throws
      ensures throws ==> books == old(books)
      ensures !throws && id in old(books) ==>
        && updated == Found(Merge(old(books)[id], fields, image))
        && books == old(books)[id := updated.book]
      ensures !throws && id !in old(books) ==> updated == NotFound && books == old(books)
    {
      calls := calls + [FindByIdAndUpdate(id)];
      if throws {
        return Threw;
      }
      if id in books {
        var b := Merge(books[id], fields, image);
        books := books[id := b];
        updated := Found(b);
      } else {
        updated := NotFound;
      }
    }

    /** Another request deleting a record; only used to interleave with an update. */
    method Delete(id: Id)
      modifies this`books
      ensures books == old(books) - {id}
    {
      books := books - {id};
    }
  }

  /**
   * `updateBook`: checks the fields, looks the book up, checks the new title
   * only if it changed, checks and encodes the image, writes, and replies.
   */
  method UpdateBook(store: BookCollection, id: Id, fields: UpdateFields, file: Option<Upload>,
                    toBase64: seq<bv8> -> string, behaviour: StoreBehaviour) returns (reply: UpdateReply)
    modifies store
    ensures var e := UpdateSpec(old(store.books), id, fields, file, toBase64, behaviour);
            reply == e.reply && store.books == e.books && store.calls == old(store.calls) + e.calls
  {
    if |fields.title| > MaxTitleLength {
      return UpdateError(400, TitleTooLongError);
    }
    if |fields.author| > MaxAuthorLength {
      return UpdateError(400, AuthorTooLongError);
    }
    if fields.availableCopies < 0 {
      return UpdateError(400, NegativeCopiesError);
    }

    var existing := store.FindBook(id, behaviour == FindByIdThrows);
    if existing.Threw? {
      return UpdateError(500, UpdateExceptionError);
    }
    if existing.NotFound? {
      return UpdateError(404, NotFoundError);
    }

    if existing.book.title != fields.title {
      var duplicate := store.FindOneByTitle(fields.title, behaviour == FindOneThrows);
      if duplicate.Threw? {
        return UpdateError(500, UpdateExceptionError);
      }
      if duplicate.Found? {
        return UpdateError(400, TitleExistsError);
      }
    }

    var imageBase64: Option<string> := None;
    if file.Some? {
      if |file.value.buffer| > MaxImageBytes {
        return UpdateError(400, ImageTooLargeError);
      }
      imageBase64 := Some(toBase64(file.value.buffer));
    }

    if behaviour == DeletedBeforeWrite {
      store.Delete(id);
    }
    var updated := store.FindByIdAndReplace(id, fields, imageBase64, behaviour == UpdateThrows);
    if updated.Threw? {
      return UpdateError(500, UpdateExceptionError);
    }
    if updated.Found? {
      reply := UpdateOk(UpdatedMessage, updated.book);
    } else {
      reply := UpdateError(500, UpdateFailedError);
    }
  }

  // ---------------------------------------------------------------------------
  // What an update preserves
  // ---------------------------------------------------------------------------

  /** No two books share a title. */
  predicate UniqueTitles(books: map<Id, Book>) {
    forall a, b :: a in books && b in books && books[a].title == books[b].title ==> a == b
  }

  /** No book has a negative number of available copies. */
  predicate CopiesNonNegative(books: map<Id, Book>) {
    forall k :: k in books ==> books[k].availableCopies >= 0
  }

  /** An update never gives two books the same title. */
  lemma UpdateKeepsTitlesUnique(books: map<Id, Book>, id: Id, fields: UpdateFields, file: Option<Upload>,
                                toBase64: seq<bv8> -> string, behaviour: StoreBehaviour)
    requires UniqueTitles(books)
    ensures UniqueTitles(UpdateSpec(books, id, fields, file, toBase64, behaviour).books)
  {
    var e := UpdateSpec(books, id, fields, file, toBase64, behaviour);
    if e.reply.UpdateOk? {
      forall a, b | a in e.books && b in e.books && e.books[a].title == e.books[b].title
        ensures a == b
      {
      }
    }
  }

  /** An update never stores a negative number of copies. */
  lemma UpdateKeepsCopiesNonNegative(books: map<Id, Book>, id: Id, fields: UpdateFields, file: Option<Upload>,
                                     toBase64: seq<bv8> -> string, behaviour: StoreBehaviour)
    requires CopiesNonNegative(books)
    ensures CopiesNonNegative(UpdateSpec(books, id, fields, file, toBase64, behaviour).books)
  {
    var e := UpdateSpec(books, id, fields, file, toBase64, behaviour);
    if e.reply.UpdateOk? {
      assert FieldsValid(fields);
    }
  }

  /**
   * Sending the same successful update again succeeds with the same record
   * and leaves the collection as it is: the title is now the book's own, so
   * it is not looked for among the other books.
   */
  lemma UpdateIsIdempotent(books: map<Id, Book>, id: Id, fields: UpdateFields, file: Option<Upload>,
                           toBase64: seq<bv8> -> string)
    requires UpdateSpec(books, id, fields, file, toBase64, Normal).reply.UpdateOk?
    ensures var first := UpdateSpec(books, id, fields, file, toBase64, Normal);
            var again := UpdateSpec(first.books, id, fields, file, toBase64, Normal);
            again.reply == first.reply && again.books == first.books && FindOne(fields.title) !in again.calls
  {
    var first := UpdateSpec(books, id, fields, file, toBase64, Normal);
    assert first.books[id] == first.reply.book;
    assert first.books[id := first.reply.book] == first.books;
  }

  // ---------------------------------------------------------------------------
  // Fetching one book
  // ---------------------------------------------------------------------------

  /** The reply of `fetchBookById`: an error status with a text body, or the record as JSON. */
  datatype FetchReply =
    | FetchError(status: nat, text: string)
    | Fetched(book: Book)

  const InvalidIdText: string := "Invalid book ID format"
  const BookNotFoundText: string := "Book not found"
  const ServerErrorText: string := "Server error"

  /**
   * `fetchBookById`: trim the id, reject a malformed one before any driver
   * call, then look it up. `isValidObjectId` is the driver's format check;
   * `findThrows` says the lookup fails.
   */
  function FetchBookById(books: map<Id, Book>, rawId: string, isValidObjectId: string -> bool, findThrows: bool)
    : (r: FetchReply)
    ensures !isValidObjectId(Trim(rawId)) ==> r == FetchError(400, InvalidIdText)
    ensures r.Fetched? <==> isValidObjectId(Trim(rawId)) && !findThrows && Trim(rawId) in books
    ensures r.Fetched? ==> r.book == books[Trim(rawId)]
    ensures r == FetchError(404, BookNotFoundText) <==>
      isValidObjectId(Trim(rawId)) && !findThrows && Trim(rawId) !in books
    ensures r == FetchError(500, ServerErrorText) <==> isValidObjectId(Trim(rawId)) && findThrows
  {
    var id := Trim(rawId);
    if !isValidObjectId(id) then FetchError(400, InvalidIdText)
    else if findThrows then FetchError(500, ServerErrorText)
    else if id !in books then FetchError(404, BookNotFoundText)
    else Fetched(books[id])
  }

  /** Blanks around an id in the URL make no difference to the fetch. */
  lemma FetchIgnoresSurroundingBlanks(books: map<Id, Book>, pre: string, id: Id, post: string,
                                      isValidObjectId: string -> bool, findThrows: bool)
    requires Blank(pre) && Blank(post) && CleanEnds(id)
    ensures FetchBookById(books, pre + id + post, isValidObjectId, findThrows)
         == FetchBookById(books, id, isValidObjectId, findThrows)
  {
    TrimClean(id);
    TrimRemovesPadding(pre, id, post);
    FetchSeesTrimmedId(books, pre + id + post, id, isValidObjectId, findThrows);
  }

  /** The fetch handler sees the raw id only through its trimmed form. */
  lemma FetchSeesTrimmedId(books: map<Id, Book>, a: string, b: string, isValidObjectId: string -> bool, findThrows: bool)
    requires Trim(a) == Trim(b)
    ensures FetchBookById(books, a, isValidObjectId, findThrows) == FetchBookById(books, b, isValidObjectId, findThrows)
  {
  }

  /**
   * An update that passes every check succeeds, and fetching the same
   * well-formed id afterwards returns the record the update replied with.
   */
  lemma FetchAfterUpdate(books: map<Id, Book>, id: Id, fields: UpdateFields, file: Option<Upload>,
                         toBase64: seq<bv8> -> string, isValidObjectId: string -> bool)
    requires id in books && FieldsValid(fields) && ImageFits(file)
    requires books[id].title == fields.title || !TitleTaken(books, fields.title)
    requires isValidObjectId(id) && CleanEnds(id)
    ensures var e := UpdateSpec(books, id, fields, file, toBase64, Normal);
            && e.reply.UpdateOk?
            && FetchBookById(e.books, id, isValidObjectId, false) == Fetched(e.reply.book)
  {
    TrimClean(id);
  }
}

=== FILE: common.dfy ===
/** Values shared by the edit form and the server handlers. */
module Common {

  datatype Option<+T> = None | Some(value: T)

  /** Longest title (in characters) both the form and the server accept. */
  const MaxTitleLength: nat := 100

  /** Longest author name (in characters) both the form and the server accept. */
  const MaxAuthorLength: nat := 150

  /** Largest cover image, in bytes, before encoding: 16 MiB. */
  const MaxImageBytes: nat := 16 * 1024 * 1024
}

=== FILE: edit_form.dfy ===
/**
 * The edit form's own decisions: whether a title is free in the fetched book
 * list, whether a newly picked cover image is small enough to preview, and
 * the guard chain the submit handler runs before it sends the update.
 * The DOM, `fetch`, `alert` and `confirm` are outside the model: what they
 * return (the fetched list, the user's answer, the PUT's fate) is an input.
 */
module EditForm {
  import opened Common
  import opened JsText
  import opened Isbn

  /** One entry of the `/books` list, as far as the form reads it. */
  datatype ListedBook = ListedBook(id: string, title: string)

  /**
   * `isTitleUnique(newTitle, bookId)` over the fetched list: every listed
   * book either carries another title or is the book being edited.
   */
  function IsTitleUnique(books: seq<ListedBook>, newTitle: string, bookId: string): (unique: bool)
    ensures unique <==> forall i :: 0 <= i < |books| ==> books[i].title != newTitle || books[i].id == bookId
  {
    if books == [] then true
    else (books[0].title != newTitle || books[0].id == bookId) && IsTitleUnique(books[1..], newTitle, bookId)
  }

  /** An empty list never blocks a title. */
  lemma EmptyListIsUnique(newTitle: string, bookId: string)
    ensures IsTitleUnique([], newTitle, bookId)
  {
  }

  /** Uniqueness over two lists joined is uniqueness over each. */
  lemma UniqueOverConcat(a: seq<ListedBook>, b: seq<ListedBook>, newTitle: string, bookId: string)
    ensures IsTitleUnique(a + b, newTitle, bookId) <==> IsTitleUnique(a, newTitle, bookId) && IsTitleUnique(b, newTitle, bookId)
  {
    assert forall i :: 0 <= i < |a| ==> (a + b)[i] == a[i];
    assert forall i :: 0 <= i < |b| ==> (a + b)[|a| + i] == b[i];
  }

  /** No two listed entries with different ids share a title. */
  predicate DistinctTitles(books: seq<ListedBook>) {
    forall i, j :: 0 <= i < |books| && 0 <= j < |books| && books[i].title == books[j].title ==> books[i].id == books[j].id
  }

  /** Where titles are distinct, a book that keeps its own listed title is never blocked. */
  lemma OwnTitleIsUnique(books: seq<ListedBook>, k: nat)
    requires DistinctTitles(books)
    requires k < |books|
    ensures IsTitleUnique(books, books[k].title, books[k].id)
  {
  }

  // ---------------------------------------------------------------------------
  // Picking a cover image
  // ---------------------------------------------------------------------------

  const ImageTooLargeAlert: string := "Image size should not exceed 16MB. Please select a smaller file."

  /** What the image input's change handler does with the picked file. */
  datatype ImagePick =
    | NothingPicked          // no file: nothing happens
    | PickRejected(alert: string)  // alert shown and the input cleared
    | PickPreviewed          // the file is read and shown as the preview

  /** The change handler of the image input, given the size of the picked file if there is one. */
  function OnImageChange(pickedSize: Option<nat>): (r: ImagePick)
    ensures r.NothingPicked? <==> pickedSize.None?
    ensures r.PickRejected? <==> pickedSize.Some? && pickedSize.value > MaxImageBytes
    ensures r.PickRejected? ==> r.alert == ImageTooLargeAlert
  {
    match pickedSize
    case None => NothingPicked
    case Some(size) => if size > MaxImageBytes then PickRejected(ImageTooLargeAlert) else PickPreviewed
  }

  /** Exactly 16 MiB is previewed; one byte more is rejected. */
  lemma ImageCapBoundary()
    ensures OnImageChange(Some(16 * 1024 * 1024)) == PickPreviewed
    ensures OnImageChange(Some(16 * 1024 * 1024 + 1)) == PickRejected(ImageTooLargeAlert)
  {
  }

  // ---------------------------------------------------------------------------
  // Submitting the form
  // ---------------------------------------------------------------------------

  /**
   * The raw values of the edit form's fields the submit handler reads. The
   * PUT body (`new FormData(this)`) is built from the same fields as typed,
   * before any trimming.
   */
  datatype EditFields = EditFields(bookId: string, title: string, author: string, isbn: string)

  /** How the PUT request ends: `response.ok`, a non-ok response, or `fetch` throwing. */
  datatype PutResponse = PutOk | PutNotOk | PutThrew

  /** Where the submit handler stops. */
  datatype SubmitResult =
    | TitleTooLong
    | AuthorTooLong
    | InvalidIsbn
    | ListUnavailable        // fetching the list failed: the handler aborts without an alert
    | TitleNotUnique
    | NotConfirmed
    | Sent(body: EditFields, response: PutResponse)  // the PUT went out carrying `body`

  const TitleTooLongAlert: string := "Title must be 100 characters or fewer."
  const AuthorTooLongAlert: string := "Author name must be 150 characters or fewer."
  const InvalidIsbnAlert: string := "Invalid ISBN. Please enter a valid ISBN-10 or ISBN-13."
  const TitleTakenAlert: string := "Title already exists. Please choose a different title."
  const UpdatedAlert: string := "Book updated successfully!"
  const UpdateFailedAlert: string := "Failed to update book. Please try again later."
  const UpdateErrorAlert: string := "An error occurred while updating the book. Please check the console for details."

  /**
   * The alert the user sees at the end of a submission, if any. Each stop
   * that shows an alert shows its own message, so the message tells the
   * stop apart.
   */
  function SubmitAlert(r: SubmitResult): (alert: Option<string>)
    ensures alert.None? <==> r == NotConfirmed || r == ListUnavailable
    ensures alert == Some(TitleTooLongAlert) <==> r == TitleTooLong
    ensures alert == Some(AuthorTooLongAlert) <==> r == AuthorTooLong
    ensures alert == Some(InvalidIsbnAlert) <==> r == InvalidIsbn
    ensures alert == Some(TitleTakenAlert) <==> r == TitleNotUnique
    ensures alert == Some(UpdatedAlert) <==> r.Sent? && r.response == PutOk
    ensures alert == Some(UpdateFailedAlert) <==> r.Sent? && r.response == PutNotOk
    ensures alert == Some(UpdateErrorAlert) <==> r.Sent? && r.response == PutThrew
  {
    match r
    case TitleTooLong => Some(TitleTooLongAlert)
    case AuthorTooLong => Some(AuthorTooLongAlert)
    case InvalidIsbn => Some(InvalidIsbnAlert)
    case ListUnavailable => None
    case TitleNotUnique => Some(TitleTakenAlert)
    case NotConfirmed => None
    case Sent(_, PutOk) => Some(UpdatedAlert)
    case Sent(_, PutNotOk) => Some(UpdateFailedAlert)
    case Sent(_, PutThrew) => Some(UpdateErrorAlert)
  }

  /** The form closes and the list is refreshed exactly when the PUT answered ok. */
  function ClosesForm(r: SubmitResult): (closes: bool)
    ensures closes <==> r.Sent? && r.response == PutOk
    ensures closes <==> SubmitAlert(r) == Some(UpdatedAlert)
  {
    r.Sent? && r.response == PutOk
  }

  /** All four checks that precede the confirmation pass. */
  predicate PassesChecks(form: EditFields, books: seq<ListedBook>) {
    var title, author := Trim(form.title), Trim(form.author);
    && |title| <= MaxTitleLength
    && |author| <= MaxAuthorLength
    && IsValidIsbn(form.isbn)
    && IsTitleUnique(books, title, form.bookId)
  }

  /**
   * The submit handler: trimmed title length, trimmed author length, ISBN,
   * title uniqueness over the fetched list (`None` when that fetch failed),
   * the user's confirmation, then the PUT. The first failing step decides.
   */
  function Submit(form: EditFields, books: Option<seq<ListedBook>>, confirmed: bool, put: PutResponse): (r: SubmitResult)
    ensures r == TitleTooLong <==> |Trim(form.title)| > MaxTitleLength
    ensures r == AuthorTooLong <==> |Trim(form.title)| <= MaxTitleLength && |Trim(form.author)| > MaxAuthorLength
    ensures r == InvalidIsbn <==>
      |Trim(form.title)| <= MaxTitleLength && |Trim(form.author)| <= MaxAuthorLength && !IsValidIsbn(form.isbn)
    ensures r == ListUnavailable <==>
      |Trim(form.title)| <= MaxTitleLength && |Trim(form.author)| <= MaxAuthorLength && IsValidIsbn(form.isbn)
      && books.None?
    ensures r == TitleNotUnique <==>
      books.Some? && |Trim(form.title)| <= MaxTitleLength && |Trim(form.author)| <= MaxAuthorLength
      && IsValidIsbn(form.isbn) && !IsTitleUnique(books.value, Trim(form.title), form.bookId)
    ensures r == NotConfirmed <==> books.Some? && PassesChecks(form, books.value) && !confirmed
    ensures r.Sent? <==> books.Some? && PassesChecks(form, books.value) && confirmed
    ensures r.Sent? ==> r.body == form && r.response == put
  {
    var title := Trim(form.title);
    var author := Trim(form.author);
    if |title| > MaxTitleLength then TitleTooLong
    else if |author| > MaxAuthorLength then AuthorTooLong
    else if !IsValidIsbn(form.isbn) then InvalidIsbn
    else if books.None? then ListUnavailable
    else if !IsTitleUnique(books.value, title, form.bookId) then TitleNotUnique
    else if !confirmed then NotConfirmed
    else Sent(form, put)
  }

  /** Two submissions stop at the same place with the same alert; a sent body may differ. */
  predicate SameStop(r1: SubmitResult, r2: SubmitResult) {
    if r1.Sent? then r2.Sent? && r1.response == r2.response else r1 == r2
  }

  /**
   * The submit handler's checks see the title and author only through their
   * trimmed forms; only the body it sends keeps them as typed.
   */
  lemma SubmitSeesTrimmedFields(a: EditFields, b: EditFields, books: Option<seq<ListedBook>>, confirmed: bool, put: PutResponse)
    requires a.bookId == b.bookId && a.isbn == b.isbn
    requires Trim(a.title) == Trim(b.title) && Trim(a.author) == Trim(b.author)
    ensures SameStop(Submit(a, books, confirmed, put), Submit(b, books, confirmed, put))
    ensures SubmitAlert(Submit(a, books, confirmed, put)) == SubmitAlert(Submit(b, books, confirmed, put))
  {
  }

  /**
   * Surrounding blanks never count against the title limit: they are trimmed
   * before the check, yet the body sent still carries them.
   */
  lemma PaddedTitleStillFits(form: EditFields, pre: string, post: string, books: Option<seq<ListedBook>>, confirmed: bool, put: PutResponse)
    requires Blank(pre) && Blank(post) && CleanEnds(form.title)
    ensures SameStop(Submit(form.(title := pre + form.title + post), books, confirmed, put), Submit(form, books, confirmed, put))
    ensures var r := Submit(form.(title := pre + form.title + post), books, confirmed, put);
            r.Sent? ==> r.body.title == pre + form.title + post
  {
    TrimClean(form.title);
    TrimRemovesPadding(pre, form.title, post);
    SubmitSeesTrimmedFields(form.(title := pre + form.title + post), form, books, confirmed, put);
  }
}

=== FILE: isbn.dfy ===
/**
 * The edit form's ISBN check (`isValidISBN`): hyphens are ignored, then a
 * 10-character candidate is checked as an ISBN-10 (weights 1..10, mod 11, a
 * final `X` standing for 10) and a 13-character one as an ISBN-13 (weights
 * 1, 3, 1, 3, ..., mod 10). Every other length is rejected.
 */
module Isbn {

  // ---------------------------------------------------------------------------
  // Hyphen stripping
  // ---------------------------------------------------------------------------

  /** `isbn.replace(/-/g, '')`: `s` with every hyphen-minus removed. */
  function StripHyphens(s: string): (r: string)
    ensures |r| <= |s|
  {
    if s == [] then []
    else
      assert s == [s[0]] + s[1..];
      (if s[0] == '-' then [] else [s[0]]) + StripHyphens(s[1..])
  }

  /** Stripping distributes over concatenation, so it keeps the other characters in order. */
  lemma {:induction false} StripConcat(a: string, b: string)
    ensures StripHyphens(a + b) == StripHyphens(a) + StripHyphens(b)
  {
    if a != [] {
      assert (a + b)[0] == a[0];
      assert (a + b)[1..] == a[1..] + b;
      StripConcat(a[1..], b);
    } else {
      assert a + b == b;
    }
  }

  /** No hyphen survives stripping. */
  lemma {:induction false} StripLeavesNoHyphen(s: string)
    ensures '-' !in StripHyphens(s)
  {
    if s != [] {
      StripLeavesNoHyphen(s[1..]);
    }
  }

  /** A string without hyphens is left as it is. */
  lemma {:induction false} StripNoHyphens(s: string)
    requires '-' !in s
    ensures StripHyphens(s) == s
  {
    if s != [] {
      assert s[0] in s;
      assert forall c :: c in s[1..] ==> c in s;
      StripNoHyphens(s[1..]);
    }
  }

  /** Stripping twice is stripping once. */
  lemma StripIdempotent(s: string)
    ensures StripHyphens(StripHyphens(s)) == StripHyphens(s)
  {
    StripLeavesNoHyphen(s);
    StripNoHyphens(StripHyphens(s));
  }

  // ---------------------------------------------------------------------------
  // Characters and weighted sums
  // ---------------------------------------------------------------------------

  predicate IsDigit(c: char) {
    '0' <= c <= '9'
  }

  /** A character that may appear in the ISBN-10 sums: a digit, or `X` for ten. */
  predicate IsIsbn10Char(c: char) {
    IsDigit(c) || c == 'X'
  }

  /** `parseInt(c, 10)` for a digit; ten for `X`. */
  function CharValue(c: char): (v: nat)
    requires IsIsbn10Char(c)
    ensures v <= 10
    ensures v == 10 <==> c == 'X'
  {
    if c == 'X' then 10 else (c as int) - ('0' as int)
  }

  predicate Isbn10CharsUpTo(t: string, n: nat)
    requires n <= |t|
  {
    forall i :: 0 <= i < n ==> IsIsbn10Char(t[i])
  }

  /** Σ_{i < n} (i + 1) · value(t[i]): the ISBN-10 sum with ascending weights, as the source accumulates it. */
  function AscendingSum(t: string, n: nat): int
    requires n <= |t| && Isbn10CharsUpTo(t, n)
  {
    if n == 0 then 0 else AscendingSum(t, n - 1) + n * CharValue(t[n - 1])
  }

  /** Σ_{i < n} (10 − i) · value(t[i]): the textbook ISBN-10 sum with descending weights. */
  function DescendingSum(t: string, n: nat): int
    requires n <= |t| && Isbn10CharsUpTo(t, n)
  {
    if n == 0 then 0 else DescendingSum(t, n - 1) + (11 - n) * CharValue(t[n - 1])
  }

  /** Σ_{i < n} value(t[i]). */
  function ValueSum(t: string, n: nat): int
    requires n <= |t| && Isbn10CharsUpTo(t, n)
  {
    if n == 0 then 0 else ValueSum(t, n - 1) + CharValue(t[n - 1])
  }

  /** Weight of position `i` of an ISBN-13: 1 at even positions, 3 at odd ones. */
  function Weight13(i: nat): (w: nat)
    ensures w == 1 || w == 3
  {
    if i % 2 == 0 then 1 else 3
  }

  predicate DigitsUpTo(t: string, n: nat)
    requires n <= |t|
  {
    forall i :: 0 <= i < n ==> IsDigit(t[i])
  }

  /** Σ_{i < n} Weight13(i) · digit(t[i]). */
  function AlternatingSum(t: string, n: nat): int
    requires n <= |t| && DigitsUpTo(t, n)
  {
    if n == 0 then 0 else AlternatingSum(t, n - 1) + Weight13(n - 1) * CharValue(t[n - 1])
  }

  // ---------------------------------------------------------------------------
  // The validity rule
  // ---------------------------------------------------------------------------

  /** A hyphen-free ISBN-10: nine digits, then a digit or `X`, ascending-weight sum divisible by 11. */
  predicate ValidIsbn10(t: string) {
    && |t| == 10
    && DigitsUpTo(t, 9)
    && IsIsbn10Char(t[9])
    && AscendingSum(t, 10) % 11 == 0
  }

  /** A hyphen-free ISBN-13: thirteen digits, alternating-weight sum divisible by 10. */
  predicate ValidIsbn13(t: string) {
    && |t| == 13
    && DigitsUpTo(t, 13)
    && AlternatingSum(t, 13) % 10 == 0
  }

  /** What `isValidISBN(isbn)` answers. */
  predicate IsValidIsbn(isbn: string) {
    var t := StripHyphens(isbn);
    if |t| == 10 then ValidIsbn10(t)
    else if |t| == 13 then ValidIsbn13(t)
    else false
  }

  /**
   * `isValidISBN` as the form runs it: strip the hyphens, then one loop over
   * the nine weighted digits of an ISBN-10 (returning early on a non-digit)
   * and the check character, or one loop over the thirteen digits of an
   * ISBN-13.
   */
  method IsValidISBN(isbn: string) returns (valid: bool)
    ensures valid == IsValidIsbn(isbn)
  {
    var t := StripHyphens(isbn);
    if |t| == 10 {
      var sum := 0;
      var i := 0;
      while i < 9
        invariant 0 <= i <= 9
        invariant DigitsUpTo(t, i)
        invariant sum == AscendingSum(t, i)
      {
        if t[i] < '0' || t[i] > '9' {
          return false;
        }
        sum := sum + (i + 1) * CharValue(t[i]);
        i := i + 1;
      }
      var checksum := t[9];
      if checksum == 'X' {
        sum := sum + 10 * 10;
      } else if '0' <= checksum <= '9' {
        sum := sum + 10 * CharValue(checksum);
      } else {
        return false;
      }
      return sum % 11 == 0;
    } else if |t| == 13 {
      var sum := 0;
      var i := 0;
      while i < 13
        invariant 0 <= i <= 13
        invariant DigitsUpTo(t, i)
        invariant sum == AlternatingSum(t, i)
      {
        if !IsDigit(t[i]) {
          return false;
        }
        var digit := CharValue(t[i]);
        sum := sum + (if i % 2 == 0 then digit else digit * 3);
        i := i + 1;
      }
      return sum % 10 == 0;
    }
    return false;
  }

  // ---------------------------------------------------------------------------
  // Properties of the rule
  // ---------------------------------------------------------------------------

  /** Only a hyphen-stripped length of 10 or 13 can be valid. */
  lemma OnlyTenOrThirteen(isbn: string)
    requires |StripHyphens(isbn)| != 10 && |StripHyphens(isbn)| != 13
    ensures !IsValidIsbn(isbn)
  {
  }

  /** Hyphens never matter: a candidate is valid exactly when its stripped form is. */
  lemma HyphensIgnored(isbn: string)
    ensures IsValidIsbn(isbn) == IsValidIsbn(StripHyphens(isbn))
  {
    StripIdempotent(isbn);
  }

  /** A lone hyphen strips to nothing. */
  lemma StripLoneHyphen()
    ensures StripHyphens("-") == []
  {
    assert "-"[1..] == [];
  }

  /** A hyphen between two parts disappears and the parts are stripped on their own. */
  lemma StripAroundHyphen(a: string, b: string)
    ensures StripHyphens(a + "-" + b) == StripHyphens(a) + StripHyphens(b)
  {
    StripLoneHyphen();
    StripConcat(a + "-", b);
    StripConcat(a, "-");
    assert StripHyphens(a + "-") == StripHyphens(a);
  }

  /** Inserting a hyphen anywhere leaves the answer unchanged. */
  lemma HyphenInsertion(a: string, b: string)
    ensures IsValidIsbn(a + "-" + b) == IsValidIsbn(a + b)
  {
    StripAroundHyphen(a, b);
    StripConcat(a, b);
  }

  /**
   * In a valid candidate every character left after stripping is a digit,
   * except that the last character of an ISBN-10 may be `X`; no other
   * character, and no `X` in any other position, is ever accepted.
   */
  lemma ValidCharacters(isbn: string, i: nat)
    requires IsValidIsbn(isbn)
    requires i < |StripHyphens(isbn)|
    ensures var t := StripHyphens(isbn);
            IsDigit(t[i]) || (|t| == 10 && i == 9 && t[i] == 'X')
  {
  }

  lemma {:induction false} AscendingPlusDescending(t: string, n: nat)
    requires n <= |t| && Isbn10CharsUpTo(t, n)
    ensures AscendingSum(t, n) + DescendingSum(t, n) == 11 * ValueSum(t, n)
  {
    if n > 0 {
      AscendingPlusDescending(t, n - 1);
    }
  }

  lemma MultipleOfElevenDifference(a: int, b: int, k: int)
    requires a + b == 11 * k
    ensures a % 11 == 0 <==> b % 11 == 0
  {
    if a % 11 == 0 {
      var q := a / 11;
      assert b == 11 * (k - q);
    }
    if b % 11 == 0 {
      var q := b / 11;
      assert a == 11 * (k - q);
    }
  }

  /**
   * The source's ascending weighting (1..10) accepts exactly the strings the
   * textbook descending weighting (10..1) of ISO 2108 accepts.
   */
  lemma AscendingAgreesWithDescending(t: string)
    requires |t| == 10 && DigitsUpTo(t, 9) && IsIsbn10Char(t[9])
    ensures ValidIsbn10(t) <==> DescendingSum(t, 10) % 11 == 0
  {
    AscendingPlusDescending(t, 10);
    MultipleOfElevenDifference(AscendingSum(t, 10), DescendingSum(t, 10), ValueSum(t, 10));
  }

  /**
   * The ISBN-10 check character is determined by the first nine digits: it
   * is the ascending sum of those nine modulo 11, with `X` standing for 10.
   */
  lemma Isbn10CheckCharacter(t: string)
    requires |t| == 10 && DigitsUpTo(t, 9) && IsIsbn10Char(t[9])
    ensures ValidIsbn10(t) <==> CharValue(t[9]) == AscendingSum(t, 9) % 11
  {
    var s, c := AscendingSum(t, 9), CharValue(t[9]);
    assert AscendingSum(t, 10) == s + 10 * c;
    // s + 10c == (s - c) + 11c, so the sum is a multiple of 11 exactly when s - c is.
    MultipleOfElevenDifference(s + 10 * c, c - s, c);
    if (c - s) % 11 == 0 {
      var q := (c - s) / 11;
      assert s == c + 11 * (-q);
      assert s % 11 == c;
    }
    if c == s % 11 {
      assert c - s == -11 * (s / 11);
    }
  }

  /**
   * The ISBN-13 check digit is determined by the first twelve digits: it is
   * what brings their weighted sum up to the next multiple of ten.
   */
  lemma Isbn13CheckDigit(t: string)
    requires |t| == 13 && DigitsUpTo(t, 13)
    ensures ValidIsbn13(t) <==> CharValue(t[12]) == (10 - AlternatingSum(t, 12) % 10) % 10
  {
    var s, d := AlternatingSum(t, 12), CharValue(t[12]);
    assert AlternatingSum(t, 13) == s + d;
    var r := s % 10;
    assert s == 10 * (s / 10) + r;
    if (s + d) % 10 == 0 {
      assert (r + d) % 10 == 0 by {
        assert r + d == (s + d) - 10 * (s / 10);
      }
    }
    if d == (10 - r) % 10 {
      assert s + d == 10 * (s / 10) + r + d;
      if r == 0 {
        assert s + d == 10 * (s / 10);
      } else {
        assert s + d == 10 * (s / 10 + 1);
      }
    }
  }

  /** Changing one digit of a valid ISBN-13 always makes it invalid. */
  lemma {:induction false} Isbn13DetectsSingleSubstitution(t: string, u: string, k: nat)
    requires ValidIsbn13(t) && |u| == 13 && DigitsUpTo(u, 13)
    requires k < 13 && t[k] != u[k]
    requires forall i :: 0 <= i < 13 && i != k ==> t[i] == u[i]
    ensures !ValidIsbn13(u)
  {
    SumDifference(t, u, k, 13);
    var d := CharValue(u[k]) - CharValue(t[k]);
    assert AlternatingSum(u, 13) == AlternatingSum(t, 13) + Weight13(k) * d;
    assert d != 0 && -9 <= d <= 9;
  }

  lemma {:induction false} SumDifference(t: string, u: string, k: nat, n: nat)
    requires |t| == |u| && n <= |t| && DigitsUpTo(t, n) && DigitsUpTo(u, n)
    requires k < n
    requires forall i :: 0 <= i < n && i != k ==> t[i] == u[i]
    ensures AlternatingSum(u, n) == AlternatingSum(t, n) + Weight13(k) * (CharValue(u[k]) - CharValue(t[k]))
  {
    if n - 1 == k {
      SameSum(t, u, k);
    } else {
      SumDifference(t, u, k, n - 1);
    }
  }

  lemma {:induction false} SameSum(t: string, u: string, n: nat)
    requires n <= |t| && n <= |u| && DigitsUpTo(t, n) && DigitsUpTo(u, n)
    requires forall i :: 0 <= i < n ==> t[i] == u[i]
    ensures AlternatingSum(u, n) == AlternatingSum(t, n)
  {
    if n > 0 {
      SameSum(t, u, n - 1);
    }
  }

  // ---------------------------------------------------------------------------
  // The form's own test inputs
  // ---------------------------------------------------------------------------

  /** `X` as the ISBN-10 check character is accepted when the sum works out. */
  lemma AcceptsCheckCharacterX()
    ensures IsValidIsbn("156881111X")
  {
    var t := "156881111X";
    assert ValidIsbn10(t) by {
      assert DigitsUpTo(t, 9);
      assert AscendingSum(t, 3) == 1 + 10 + 18;
      assert AscendingSum(t, 6) == 29 + 32 + 40 + 6;
      assert AscendingSum(t, 9) == 107 + 7 + 8 + 9;
      assert AscendingSum(t, 10) == 231;
    }
    StripNoHyphens(t);
  }

  /** Five hyphen-free groups joined by hyphens strip to the groups run together. */
  lemma StripFiveGroups(a: string, b: string, c: string, d: string, e: string)
    requires '-' !in a && '-' !in b && '-' !in c && '-' !in d && '-' !in e
    ensures StripHyphens(a + "-" + (b + "-" + (c + "-" + (d + "-" + e)))) == a + (b + (c + (d + e)))
  {
    StripAroundHyphen(a, b + "-" + (c + "-" + (d + "-" + e)));
    StripAroundHyphen(b, c + "-" + (d + "-" + e));
    StripAroundHyphen(c, d + "-" + e);
    StripAroundHyphen(d, e);
    StripNoHyphens(a);
    StripNoHyphens(b);
    StripNoHyphens(c);
    StripNoHyphens(d);
    StripNoHyphens(e);
  }

  lemma StripExampleIsbn13()
    ensures StripHyphens("978-3-16-148410-0") == "9783161484100"
  {
    assert "978-3-16-148410-0" == "978" + "-" + ("3" + "-" + ("16" + "-" + ("148410" + "-" + "0")));
    StripFiveGroups("978", "3", "16", "148410", "0");
    assert "978" + ("3" + ("16" + ("148410" + "0"))) == "9783161484100";
  }

  /** A thirteen-digit candidate whose alternating sum is 100 is accepted. */
  lemma AcceptsIsbn13()
    ensures IsValidIsbn("9783161484100")
  {
    Isbn13Example();
    StripNoHyphens("9783161484100");
  }

  lemma Isbn13Example()
    ensures ValidIsbn13("9783161484100")
  {
    var t := "9783161484100";
    assert DigitsUpTo(t, 13);
    assert AlternatingSum(t, 4) == 9 + 21 + 8 + 9;
    assert AlternatingSum(t, 8) == 47 + 1 + 18 + 1 + 12;
    assert AlternatingSum(t, 13) == 79 + 8 + 12 + 1 + 0 + 0;
  }

  /** The same ISBN-13 written with hyphens is accepted too. */
  lemma AcceptsHyphenatedIsbn13()
    ensures IsValidIsbn("978-3-16-148410-0")
  {
    AcceptsIsbn13();
    StripExampleIsbn13();
    HyphensIgnored("978-3-16-148410-0");
  }

  /** A candidate of eleven characters is rejected whatever its digits. */
  lemma RejectsElevenDigits()
    ensures !IsValidIsbn("12345678910")
  {
    var t := "12345678910";
    assert '-' !in t;
    StripNoHyphens(t);
    assert |StripHyphens(t)| == 11;
  }

  /** A ten-digit candidate whose weighted sum is 285, not a multiple of 11, is rejected. */
  lemma RejectsBadIsbn10Sum()
    ensures !IsValidIsbn("1234567890")
  {
    var t := "1234567890";
    assert !ValidIsbn10(t) by {
      assert DigitsUpTo(t, 9);
      assert AscendingSum(t, 3) == 1 + 4 + 9;
      assert AscendingSum(t, 6) == 14 + 16 + 25 + 36;
      assert AscendingSum(t, 9) == 91 + 49 + 64 + 81;
      assert AscendingSum(t, 10) == 285;
    }
    StripNoHyphens(t);
  }

  /** A letter among the nine weighted characters is rejected. */
  lemma RejectsLetterInIsbn10()
    ensures !IsValidIsbn("1234567A89")
  {
    var t := "1234567A89";
    assert !ValidIsbn10(t) by {
      assert !IsDigit(t[7]);
    }
    StripNoHyphens(t);
  }

  /** A check character other than a digit or `X` is rejected. */
  lemma RejectsBadCheckCharacter()
    ensures !IsValidIsbn("123456789Y")
  {
    var t := "123456789Y";
    assert !ValidIsbn10(t) by {
      assert !IsIsbn10Char(t[9]);
    }
    StripNoHyphens(t);
  }

  /** A letter inside a thirteen-character candidate is rejected. */
  lemma RejectsLetterInIsbn13()
    ensures !IsValidIsbn("1234567A89123")
  {
    var t := "1234567A89123";
    assert !ValidIsbn13(t) by {
      assert !IsDigit(t[7]);
    }
    StripNoHyphens(t);
  }
}

=== FILE: js_text.dfy ===
/**
 * The part of JavaScript's `String.prototype.trim` the core relies on: the
 * edit form trims the title and the author, the fetch handler trims the id.
 */
module JsText {

  /** ECMAScript WhiteSpace and LineTerminator code points: what `trim` removes. */
  predicate IsTrimmable(c: char) {
    || c == '\t' || c == '\n' || c == '\U{B}' || c == '\U{C}' || c == '\r'
    || c == ' ' || c == '\U{A0}' || c == '\U{1680}'
    || ('\U{2000}' <= c <= '\U{200A}')
    || c == '\U{2028}' || c == '\U{2029}' || c == '\U{202F}' || c == '\U{205F}'
    || c == '\U{3000}' || c == '\U{FEFF}'
  }

  /** Number of trimmable characters at the start of `s`. */
  function LeadingCount(s: string): (n: nat)
    ensures n <= |s|
    ensures forall k :: 0 <= k < n ==> IsTrimmable(s[k])
    ensures n < |s| ==> !IsTrimmable(s[n])
  {
    if s == [] || !IsTrimmable(s[0]) then 0 else 1 + LeadingCount(s[1..])
  }

  /** Number of trimmable characters at the end of `s`. */
  function TrailingCount(s: string): (n: nat)
    ensures n <= |s|
    ensures forall k :: |s| - n <= k < |s| ==> IsTrimmable(s[k])
    ensures n < |s| ==> !IsTrimmable(s[|s| - 1 - n])
  {
    if s == [] || !IsTrimmable(s[|s| - 1]) then 0 else 1 + TrailingCount(s[..|s| - 1])
  }

  /**
   * `s.trim()`: the longest factor of `s` that neither starts nor ends with a
   * trimmable character, everything cut away on either side being trimmable.
   */
  function Trim(s: string): (r: string)
    ensures |r| <= |s|
    ensures r != [] ==> !IsTrimmable(r[0]) && !IsTrimmable(r[|r| - 1])
    ensures LeadingCount(s) + |r| <= |s|
    ensures r == s[LeadingCount(s)..LeadingCount(s) + |r|]
    ensures forall k :: LeadingCount(s) + |r| <= k < |s| ==> IsTrimmable(s[k])
  {
    var rest := s[LeadingCount(s)..];
    rest[..|rest| - TrailingCount(rest)]
  }

  /** Every character of `s` is removed by `trim`. */
  predicate Blank(s: string) {
    forall k :: 0 <= k < |s| ==> IsTrimmable(s[k])
  }

  /** Neither end of `s` is a trimmable character. */
  predicate CleanEnds(s: string) {
    s != [] ==> !IsTrimmable(s[0]) && !IsTrimmable(s[|s| - 1])
  }

  /** A string with no trimmable character at either end is its own trim. */
  lemma TrimClean(s: string)
    requires CleanEnds(s)
    ensures Trim(s) == s
  {
    if s != [] {
      assert LeadingCount(s) == 0;
      assert TrailingCount(s) == 0;
    }
  }

  /** A string that is its own trim is exactly one with no trimmable character at either end. */
  lemma TrimFixedPoint(s: string)
    ensures Trim(s) == s <==> CleanEnds(s)
  {
    if CleanEnds(s) {
      TrimClean(s);
    }
  }

  /** Trimming twice is trimming once. */
  lemma TrimIdempotent(s: string)
    ensures Trim(Trim(s)) == Trim(s)
  {
    TrimClean(Trim(s));
  }

  /** Padding a clean string with trimmable characters on both sides is undone by `trim`. */
  lemma {:induction false} TrimRemovesPadding(pre: string, s: string, post: string)
    requires Blank(pre) && Blank(post) && CleanEnds(s)
    ensures Trim(pre + s + post) == s
  {
    var whole := pre + s + post;
    if s != [] {
      LeadingOfPadded(pre, s + post);
      assert pre + (s + post) == whole;
      assert LeadingCount(s + post) == 0;
      var rest := whole[|pre|..];
      assert rest == s + post;
      TrailingOfPadded(s, post);
      assert rest[..|rest| - |post|] == s;
    }
  }

  lemma {:induction false} LeadingOfPadded(pre: string, t: string)
    requires Blank(pre)
    ensures LeadingCount(pre + t) == |pre| + LeadingCount(t)
  {
    if pre != [] {
      assert (pre + t)[1..] == pre[1..] + t;
      LeadingOfPadded(pre[1..], t);
    } else {
      assert pre + t == t;
    }
  }

  lemma {:induction false} TrailingOfPadded(s: string, post: string)
    requires Blank(post)
    requires s != [] ==> !IsTrimmable(s[|s| - 1])
    ensures TrailingCount(s + post) == |post|
  {
    if post != [] {
      assert (s + post)[..|s + post| - 1] == s + post[..|post| - 1];
      TrailingOfPadded(s, post[..|post| - 1]);
    } else {
      assert s + post == s;
    }
  }
}
